=== FILE: README.md ===
# Bank account core — a Dafny model

This project models the account and bank core of a small retail-bank console
application (`customer/bank_app.py`). The core is made up of these parts:

- an `Account` with a type tag and a balance, whose `deposit` accepts only
  positive amounts;
- `CheckingAccount`, which adds an overdraft count and an active flag, and
  `SavingsAccount`;
- the `Bank`, which keeps a map from account id to a customer record. A record
  holds the first name, last name, password, a checking account and a savings
  account;
- `load_customers`, which turns each row of the customer file into such a
  record and stores it under the row's `account_id`;
- `deposit_mony`, which looks up the customer, checks the account type and
  credits the named sub-account.

The model is functional. Accounts and customers are immutable datatypes, and
the bank is a `map<string, Customer>`. Every operation is a pure function. The
source raises `ValueError` for each failure it checks explicitly; here a failure is a `Result` value
carrying the error kind. `Results.Message` gives the message the source raises
with. Balances are `real`.

Files:

- `results.dfy`: `Option`, `Result` and the error kinds.
- `text.dfy`: `str.lower()` and the case-insensitive test for "true".
- `accounts.dfy`: the account datatype, both constructors and `deposit`.
- `bank.dfy`: customer records, loading rows, and `deposit_mony`.

Facts about `customer/bank_app.py` that shape the model:

- A deposit writes no log or transaction record.
- The file defines no withdrawal, overdraft fee, deactivation, transfer or ranking.
- It raises explicitly with three messages, the three kinds of `Results.Error`.
  Errors raised implicitly by Python (`KeyError`, `ValueError` from `float()`
  and `int()`, `TypeError` from `float(None)` and `int(None)` on short rows,
  `AttributeError`) are listed under "## Left out".

## Model

| member | source | states |
|---|---|---|
| Text.LowerChar | customer/bank_app.py:47 | an ASCII character as `lower()` maps it: an upper-case ASCII letter becomes its lower-case letter (code point plus 32), other characters are left as they are, and the result is never upper-case |
| Text.Lower | customer/bank_app.py:47 | `lower()` keeps the length, lowers each upper-case letter and leaves every other character alone; no upper-case letter remains |
| Text.LowerIdempotent | customer/bank_app.py:47 | lowering an already lowered string changes nothing |
| Text.LowerIsTrueIff | customer/bank_app.py:47 | a lowered field equals "true" exactly when it is a four-letter, case-insensitive spelling of "true" (both directions) |
| Accounts.NewChecking | customer/bank_app.py:14-21 | a checking account is tagged "checking" and stores exactly the given balance, overdraft count and boolean active flag; a text flag (corrected branch) is true exactly for a spelling of "true" |
| Accounts.CheckingActiveAsWritten | customer/bank_app.py:20-23 | as written, the active flag is set exactly when a bool was passed, and then agrees with the corrected constructor; a text argument leaves it unset |
| Accounts.TextActiveFlagIsDropped | customer/bank_app.py:22-23 | the text "true" leaves the written constructor's flag unset, while the corrected one makes the account active |
| Accounts.NewSavings | customer/bank_app.py:28-31 | a savings account is tagged "savings" and stores exactly the given balance |
| Accounts.ConstructorDefaults | customer/bank_app.py:4-31 | with no arguments, a checking account has balance 0, overdraft count 0 and is active; a savings account has balance 0 |
| Results.Message | customer/bank_app.py:10-70 | each error kind carries the message the source raises it with (lines 10, 63 and 70), and each message identifies exactly one kind |
| Accounts.Deposit | customer/bank_app.py:8-12 | a deposit fails with the invalid-amount error exactly when the amount is not positive; otherwise it returns the new balance, which is the old balance plus the amount; the type tag and every other field are unchanged |
| Accounts.DepositsAccumulate | customer/bank_app.py:8-12 | two positive deposits give the same account as one deposit of their sum |
| Bank.ParseActive | customer/bank_app.py:47 | a missing `is_active` column means active; a present one means active exactly when it spells "true" in any letter case |
| Bank.RowToCustomer | customer/bank_app.py:44-55 | the record built from a row is well formed, copies the names, password and both balances, defaults a missing overdraft count to 0 and a missing active flag to true, and parses a present flag case-insensitively |
| Bank.TextConstructorMatchesLoader | customer/bank_app.py:47-53 | giving the raw flag text to the corrected checking constructor yields the same account as the loader's parse-then-construct |
| Bank.LoadRows | customer/bank_app.py:43-55 | after loading, the keys are the earlier keys plus the id of every row |
| Bank.LoadRowsLastWins | customer/bank_app.py:44-49 | after loading, each row id holds the record built from the last row with that id |
| Bank.LoadRowsKeepsOthers | customer/bank_app.py:43-49 | an id that no row carries keeps the record it had before loading |
| Bank.LoadRowsWellFormed | customer/bank_app.py:49-55 | when every record is well formed before loading, so is every record after |
| Bank.LaterDuplicateOverwrites | customer/bank_app.py:44-49 | of two rows with the same id, the later row's record is kept |
| Bank.FixtureLoads | tests/test_bank.py:11-19 | loading the test fixture gives customer 10001 a checking balance of 1000 and a savings balance of 10000; the account is active with no overdrafts |
| Bank.DepositMony | customer/bank_app.py:60-70 | the checks run in this order: an unknown id fails with customer-not-found, then a type other than checking/savings fails with invalid-account-type (even when the amount is also bad), then a non-positive amount fails with invalid-amount; it succeeds exactly when all three pass, and then only the named sub-account of the named customer is credited by the amount; the other sub-account, the customer's other fields, all other customers and the key set are unchanged |
| Bank.DepositMonyAccumulates | customer/bank_app.py:60-68 | two successful deposits into the same sub-account leave the bank as one deposit of their sum |
| Bank.DepositMonyCommutes | customer/bank_app.py:60-68 | successful deposits into two different sub-accounts can be made in either order |
| Bank.DepositMonyIsUpdate | customer/bank_app.py:65-68 | a successful deposit is one map update: the named customer is replaced by itself with the amount added to the named sub-account (`CreditSlot`); this normal form of the success branch is what `Bank.DepositMonyCommutes` is proved from |

## Findings

| source | as written | input that shows it | evidently intended | confidence | as-written member | corrected member |
|---|---|---|---|---|---|---|
| customer/bank_app.py:22-23 | when `is_active` is not a bool, the result of `is_active.lower() == 'true'` is discarded and `self.is_active` is never assigned | `CheckingAccount(0, 0, 'true')`: the object has no `is_active` attribute | `self.is_active = is_active.lower() == 'true'` | high, not executed | Accounts.CheckingActiveAsWritten (with Accounts.TextActiveFlagIsDropped) | Accounts.NewChecking |

## Left out

- Reading the customer file is not modelled. That covers `open`, `csv.DictReader`, the fallback to an empty map when the file is missing, and the progress and warning `print` calls. They are I/O. `Bank.LoadRows` receives the rows already read, plus the map to load into (empty at construction).
- The conversions of column text to numbers are not modelled. These are `float(balance)` and `int(overdraft_count)`, which raise on malformed text. A `Bank.Row` holds the balances as numbers and the overdraft count as an optional integer.
- A row that lacks a required column raises `KeyError`, and a short row yields `None` values. Neither case is modelled, because both come from the CSV reader.
- Accounts.Deposit: NaN and infinite amounts are not modelled. In the source, `amount <= 0` is false for NaN, so a NaN deposit passes the positivity check and makes the balance NaN; a positive infinite amount passes the check and makes the balance infinite (NaN on a balance of `-inf`); a negative infinite amount is rejected. Over `real` every amount is finite.
- Floating-point rounding is not modelled. Balances are exact `real` numbers, and the deposit rules do not depend on rounding.
- Text.LowerChar, Text.Lower: only ASCII letters are lowered, not Python's full Unicode case mapping. No other character lowers to a letter of "true", so the `is_active` test is unaffected.
- The base `Account` class can be built with any tag. The source builds accounts only through its two subclasses, so only the tags "checking" and "savings" are modelled.
- A non-bool, non-string `is_active` argument to `CheckingAccount` raises `AttributeError` at line 23, and a row shorter than the header (missing values read as `None`) raises at line 46 or 47: `TypeError` from `int(None)`, or `AttributeError` from `None.lower()`. Neither is modelled: `Accounts.ActiveArg` holds only a bool or a string, and `Bank.Row` holds only a string or nothing.
- The source tests `if not customer`. A customer record is a non-empty dict, so this test fails only when the id is absent, and it is modelled as a missing key.
- `main.py` is not modelled. It is a console menu. It calls `withdraw_money`, `transfer_money`, `reactivate_account`, `add_new_customer`, `log_in`, `top_3_customers`, `generate_statement` and `deposit_money`, and `customer/bank_app.py` defines none of them: its deposit method is spelled `deposit_mony`.
- Withdrawal, overdraft fees, deactivation and reactivation, transfers, the transaction ledger, authentication and top-N ranking are not modelled. `customer/bank_app.py` implements none of them.
- The test fixture's file writing and the script's `__main__` block are not modelled, because they are I/O.

=== FILE: accounts.dfy ===
/** The account classes of customer/bank_app.py: `Account` with its
    `deposit`, and the two concrete kinds `CheckingAccount` and
    `SavingsAccount`, as one closed datatype with a variant per kind.
 */
module Accounts {
  import opened Results
  import Text

  /** An account value. `AccountType` gives the tag the source stores in
      `account_type`; a checking account also carries its overdraft count
      and active flag. */
  datatype Account =
    | Checking(balance: real, overdraftCount: int, isActive: bool)
    | Savings(balance: real)
  {
    function AccountType(): string {
      if Checking? then "checking" else "savings"
    }
  }

  /** The `is_active` argument of `CheckingAccount`: a bool, or the text a
      caller passed in its place. */
  datatype ActiveArg = FromBool(flag: bool) | FromText(text: string)

  /** `CheckingAccount(balance, overdraft_count, is_active)`, with the text
      branch completed as the source evidently intends: the flag is true
      exactly for the spellings of "true". */
  function NewChecking(balance: real := 0.0, overdraftCount: int := 0,
                       isActive: ActiveArg := FromBool(true)): (a: Account)
    ensures a.Checking? && a.AccountType() == "checking"
    ensures a.balance == balance && a.overdraftCount == overdraftCount
    ensures isActive.FromBool? ==> a.isActive == isActive.flag
    ensures isActive.FromText? ==> (a.isActive <==> Text.SpellsTrue(isActive.text))
  {
    match isActive
    case FromBool(b) => Checking(balance, overdraftCount, b)
    case FromText(s) =>
      Text.LowerIsTrueIff(s);
      Checking(balance, overdraftCount, Text.Lower(s) == "true")
  }

  /** The `is_active` attribute as the constructor at lines 20-23 leaves it:
      set from a bool, never assigned (`None`) when a text was passed, since
      the comparison's result is discarded. */
  function CheckingActiveAsWritten(isActive: ActiveArg): (flag: Option<bool>)
    ensures flag.Some? <==> isActive.FromBool?
    ensures flag.Some? ==> flag.value == NewChecking(isActive := isActive).isActive
  {
    match isActive
    case FromBool(b) => Some(b)
    case FromText(_) => None
  }

  /** On the text "true" the written constructor leaves the flag unset,
      where the corrected one sets it. */
  lemma TextActiveFlagIsDropped()
    ensures CheckingActiveAsWritten(FromText("true")) == None
    ensures NewChecking(isActive := FromText("true")).isActive
  {
  }

  /** `SavingsAccount(balance)`. */
  function NewSavings(balance: real := 0.0): (a: Account)
    ensures a.Savings? && a.AccountType() == "savings"
    ensures a.balance == balance
  {
    Savings(balance)
  }

  /** Constructed with no arguments, each account starts empty; a checking
      account starts with no overdrafts and active. */
  lemma ConstructorDefaults()
    ensures NewChecking() == Checking(0.0, 0, true)
    ensures NewSavings() == Savings(0.0)
  {
  }

  /** What `deposit` yields: the updated account and the balance it returns. */
  datatype Deposited = Deposited(account: Account, newBalance: real)

  /** `Account.deposit(amount)`. */
  function Deposit(a: Account, amount: real): (r: Result<Deposited, Error>)
    ensures r.Failure? <==> amount <= 0.0
    ensures r.Failure? ==> r.error == InvalidAmount
    ensures r.Success? ==> r.value.newBalance == r.value.account.balance == a.balance + amount
    ensures r.Success? ==> r.value.account.AccountType() == a.AccountType()
    ensures r.Success? ==> r.value.account.(balance := a.balance) == a
  {
    if amount <= 0.0 then Failure(InvalidAmount)
    else
      var b := a.balance + amount;
      Success(Deposited(a.(balance := b), b))
  }

  /** Two successful deposits leave the account as one deposit of their sum. */
  lemma DepositsAccumulate(a: Account, x: real, y: real)
    requires x > 0.0 && y > 0.0
    ensures Deposit(a, x).Success?
    ensures Deposit(Deposit(a, x).value.account, y) == Deposit(a, x + y)
  {
  }
}

=== FILE: bank.dfy ===
/** The `Bank` class of customer/bank_app.py: the customer map keyed by
    account id, the row-to-record step of `load_customers`, and
    `deposit_mony`.
 */
module Bank {
  import opened Results
  import Text
  import opened Accounts

  /** A customer record: identity fields and the two sub-accounts. */
  datatype Customer = Customer(firstName: string, lastName: string, password: string,
                               checking: Account, savings: Account)
  {
    /** The checking slot holds a checking account, the savings slot a savings account. */
    predicate WellFormed() {
      checking.Checking? && savings.Savings?
    }
  }

  type Customers = map<string, Customer>

  ghost predicate AllWellFormed(customers: Customers) {
    forall id | id in customers :: customers[id].WellFormed()
  }

  /** One row of the customer file, with the numeric columns already
      converted; the two columns the loader defaults may be absent. */
  datatype Row = Row(accountId: string, firstName: string, lastName: string, password: string,
                     balanceChecking: real, balanceSavings: real,
                     overdraftCount: Option<int>, isActive: Option<string>)

  /** The `is_active` column as the loader reads it: absent means active,
      otherwise active exactly for a case-insensitive "true". */
  function ParseActive(field: Option<string>): (active: bool)
    ensures field.None? ==> active
    ensures field.Some? ==> (active <==> Text.SpellsTrue(field.value))
  {
    var s := field.GetOr("True");
    Text.LowerIsTrueIff(s);
    assert Text.SpellsTrue("True");
    Text.Lower(s) == "true"
  }

  /** The record the loader builds from one row. */
  function RowToCustomer(row: Row): (c: Customer)
    ensures c.WellFormed()
    ensures c.firstName == row.firstName && c.lastName == row.lastName && c.password == row.password
    ensures c.checking.AccountType() == "checking" && c.savings.AccountType() == "savings"
    ensures c.checking.balance == row.balanceChecking && c.savings.balance == row.balanceSavings
    ensures c.checking.overdraftCount == row.overdraftCount.GetOr(0)
    ensures row.isActive.None? ==> c.checking.isActive
    ensures row.isActive.Some? ==> (c.checking.isActive <==> Text.SpellsTrue(row.isActive.value))
  {
    Customer(row.firstName, row.lastName, row.password,
             NewChecking(row.balanceChecking, row.overdraftCount.GetOr(0), FromBool(ParseActive(row.isActive))),
             NewSavings(row.balanceSavings))
  }

  /** Passing the raw `is_active` text to the corrected checking constructor
      gives the same account as the loader's parse-then-construct. */
  lemma TextConstructorMatchesLoader(balance: real, overdraftCount: int, field: string)
    ensures NewChecking(balance, overdraftCount, FromText(field))
         == NewChecking(balance, overdraftCount, FromBool(ParseActive(Some(field))))
  {
  }

  /** The ids the rows carry. */
  function RowIds(rows: seq<Row>): set<string> {
    set r | r in rows :: r.accountId
  }

  /** Row `i` is the last row carrying its account id. */
  predicate LastFor(rows: seq<Row>, i: int)
    requires 0 <= i < |rows|
  {
    forall j | i < j < |rows| :: rows[j].accountId != rows[i].accountId
  }

  /** The loop of `load_customers`: each row, in order, is stored under its
      account id. The lemmas below say which record each id ends up with. */
  function LoadRows(customers: Customers, rows: seq<Row>): (m: Customers)
    ensures m.Keys == customers.Keys + RowIds(rows)
    decreases |rows|
  {
    if rows == [] then customers
    else
      var n := |rows| - 1;
      assert rows == rows[..n] + [rows[n]];
      LoadRows(customers, rows[..n])[rows[n].accountId := RowToCustomer(rows[n])]
  }

  /** Each id holds the record built from the last row carrying it. */
  lemma {:induction false} LoadRowsLastWins(customers: Customers, rows: seq<Row>, i: int)
    requires 0 <= i < |rows| && LastFor(rows, i)
    ensures rows[i].accountId in LoadRows(customers, rows)
    ensures LoadRows(customers, rows)[rows[i].accountId] == RowToCustomer(rows[i])
    decreases |rows|
  {
    var n := |rows| - 1;
    if i < n {
      var prefix := rows[..n];
      assert LastFor(prefix, i) && prefix[i] == rows[i];
      assert rows[n].accountId != rows[i].accountId;
      LoadRowsLastWins(customers, prefix, i);
    }
  }

  /** An id that no row carries keeps the record it had before loading. */
  lemma {:induction false} LoadRowsKeepsOthers(customers: Customers, rows: seq<Row>, id: string)
    requires id in customers && id !in RowIds(rows)
    ensures LoadRows(customers, rows)[id] == customers[id]
    decreases |rows|
  {
    if rows != [] {
      var n := |rows| - 1;
      assert rows[n] in rows;
      var prefix := rows[..n];
      assert RowIds(prefix) <= RowIds(rows) by {
        forall r | r in prefix ensures r in rows {
        }
      }
      LoadRowsKeepsOthers(customers, prefix, id);
    }
  }

  /** Loading keeps every record well formed. */
  lemma {:induction false} LoadRowsWellFormed(customers: Customers, rows: seq<Row>)
    requires AllWellFormed(customers)
    ensures AllWellFormed(LoadRows(customers, rows))
    decreases |rows|
  {
    if rows != [] {
      var n := |rows| - 1;
      LoadRowsWellFormed(customers, rows[..n]);
      assert RowToCustomer(rows[n]).WellFormed();
    }
  }

  /** The two rows the test fixture writes, as the loader sees them. */
  function FixtureRows(): seq<Row> {
    [ Row("10001", "suresh", "sigera", "pass1", 1000.0, 10000.0, Some(0), Some("True")),
      Row("10002", "test", "user", "pass2", 50.0, 500.0, Some(0), Some("True")) ]
  }

  /** A bank opened on the fixture holds customer 10001 with balances 1000
      and 10000, active and without overdrafts. */
  lemma FixtureLoads()
    ensures "10001" in LoadRows(map[], FixtureRows())
    ensures LoadRows(map[], FixtureRows())["10001"].checking.balance == 1000.0
    ensures LoadRows(map[], FixtureRows())["10001"].savings.balance == 10000.0
    ensures LoadRows(map[], FixtureRows())["10001"].checking.isActive
    ensures LoadRows(map[], FixtureRows())["10001"].checking.overdraftCount == 0
  {
    assert LastFor(FixtureRows(), 0);
    LoadRowsLastWins(map[], FixtureRows(), 0);
    assert Text.SpellsTrue("True");
  }

  /** Of two rows with the same id, the later one's record is the one kept. */
  lemma LaterDuplicateOverwrites(customers: Customers, first: Row, second: Row)
    requires first.accountId == second.accountId
    ensures LoadRows(customers, [first, second])[first.accountId] == RowToCustomer(second)
  {
    LoadRowsLastWins(customers, [first, second], 1);
  }

  /** The two account types a deposit may name. */
  predicate IsAccountType(accountType: string) {
    accountType == "checking" || accountType == "savings"
  }

  /** `deposit_mony(account_id, account_type, amount)`: the customer lookup,
      then the account type, then the amount (checked by the account's
      deposit); on success the map with the one sub-account credited. */
  function DepositMony(customers: Customers, accountId: string, accountType: string, amount: real)
    : (r: Result<Customers, Error>)
    ensures accountId !in customers ==> r == Failure(CustomerNotFound)
    ensures accountId in customers && !IsAccountType(accountType) ==> r == Failure(InvalidAccountType)
    ensures accountId in customers && IsAccountType(accountType) && amount <= 0.0 ==> r == Failure(InvalidAmount)
    ensures r.Success? <==> accountId in customers && IsAccountType(accountType) && amount > 0.0
    ensures r.Success? ==> r.value.Keys == customers.Keys
    ensures r.Success? ==> forall id | id in customers && id != accountId :: r.value[id] == customers[id]
    ensures r.Success? ==> Credited(customers[accountId], r.value[accountId], accountType, amount)
    ensures r.Success? && AllWellFormed(customers) ==> AllWellFormed(r.value)
  {
    if accountId !in customers then Failure(CustomerNotFound)
    else
      var c := customers[accountId];
      if accountType == "checking" then
        match Deposit(c.checking, amount)
        case Failure(e) => Failure(e)
        case Success(d) => Success(customers[accountId := c.(checking := d.account)])
      else if accountType == "savings" then
        match Deposit(c.savings, amount)
        case Failure(e) => Failure(e)
        case Success(d) => Success(customers[accountId := c.(savings := d.account)])
      else Failure(InvalidAccountType)
  }

  /** `after` is `before` with `amount` added to the named sub-account's
      balance: names, password, the account's other fields and the other
      sub-account are as they were. */
  predicate Credited(before: Customer, after: Customer, accountType: string, amount: real) {
    && after.firstName == before.firstName
    && after.lastName == before.lastName
    && after.password == before.password
    && (accountType == "checking" ==>
          && after.checking.balance == before.checking.balance + amount
          && after.checking.(balance := before.checking.balance) == before.checking
          && after.savings == before.savings)
    && (accountType == "savings" ==>
          && after.savings.balance == before.savings.balance + amount
          && after.savings.(balance := before.savings.balance) == before.savings
          && after.checking == before.checking)
  }

  /** Two successful deposits into the same sub-account leave the bank as one
      deposit of their sum. */
  lemma DepositMonyAccumulates(customers: Customers, accountId: string, accountType: string, x: real, y: real)
    requires DepositMony(customers, accountId, accountType, x).Success?
    requires y > 0.0
    ensures DepositMony(DepositMony(customers, accountId, accountType, x).value, accountId, accountType, y)
         == DepositMony(customers, accountId, accountType, x + y)
  {
    var c := customers[accountId];
    if accountType == "checking" {
      DepositsAccumulate(c.checking, x, y);
      var a1 := Deposit(c.checking, x).value.account;
      var a2 := Deposit(a1, y).value.account;
      var once := customers[accountId := c.(checking := a1)];
      assert DepositMony(customers, accountId, accountType, x).value == once;
      assert DepositMony(once, accountId, accountType, y).value == once[accountId := c.(checking := a2)];
      assert once[accountId := c.(checking := a2)] == customers[accountId := c.(checking := a2)];
    } else {
      DepositsAccumulate(c.savings, x, y);
      var a1 := Deposit(c.savings, x).value.account;
      var a2 := Deposit(a1, y).value.account;
      var once := customers[accountId := c.(savings := a1)];
      assert DepositMony(customers, accountId, accountType, x).value == once;
      assert DepositMony(once, accountId, accountType, y).value == once[accountId := c.(savings := a2)];
      assert once[accountId := c.(savings := a2)] == customers[accountId := c.(savings := a2)];
    }
  }

  /** The customer `c` with `amount` added to the balance of the named sub-account. */
  ghost function CreditSlot(c: Customer, accountType: string, amount: real): Customer {
    if accountType == "checking" then c.(checking := c.checking.(balance := c.checking.balance + amount))
    else c.(savings := c.savings.(balance := c.savings.balance + amount))
  }

  /** A successful deposit is the update of one map entry. */
  lemma DepositMonyIsUpdate(customers: Customers, accountId: string, accountType: string, amount: real)
    requires DepositMony(customers, accountId, accountType, amount).Success?
    ensures DepositMony(customers, accountId, accountType, amount).value
         == customers[accountId := CreditSlot(customers[accountId], accountType, amount)]
  {
  }

  /** Deposits into two different sub-accounts, of the same or of different
      customers, commute. */
  lemma DepositMonyCommutes(customers: Customers, id1: string, type1: string, x: real,
                            id2: string, type2: string, y: real)
    requires DepositMony(customers, id1, type1, x).Success?
    requires DepositMony(customers, id2, type2, y).Success?
    requires id1 != id2 || type1 != type2
    ensures DepositMony(DepositMony(customers, id1, type1, x).value, id2, type2, y)
         == DepositMony(DepositMony(customers, id2, type2, y).value, id1, type1, x)
  {
    var m1 := DepositMony(customers, id1, type1, x).value;
    var m2 := DepositMony(customers, id2, type2, y).value;
    DepositMonyIsUpdate(customers, id1, type1, x);
    DepositMonyIsUpdate(customers, id2, type2, y);
    DepositMonyIsUpdate(m1, id2, type2, y);
    DepositMonyIsUpdate(m2, id1, type1, x);
    if id1 != id2 {
      var a := CreditSlot(customers[id1], type1, x);
      var b := CreditSlot(customers[id2], type2, y);
      assert m1[id2] == customers[id2] && m2[id1] == customers[id1];
      assert customers[id1 := a][id2 := b] == customers[id2 := b][id1 := a];
    } else {
      var c := customers[id1];
      var both := CreditSlot(CreditSlot(c, type1, x), type2, y);
      assert both == CreditSlot(CreditSlot(c, type2, y), type1, x);
      assert m1[id1 := both] == customers[id1 := both] == m2[id1 := both];
    }
  }
}

=== FILE: results.dfy ===
/** Option and Result values, and the error kinds the bank core raises.

    The source signals every failure by raising `ValueError` with a fixed
    message; here a failure is a `Failure` value carrying one of the kinds
    below, and `Message` gives back the text the source raises with.
 */
module Results {

  datatype Option<+T> = None | Some(value: T) {

    /** The held value, or `default` when there is none (Python's `dict.get(key, default)`). */
    function GetOr(default: T): T {
      match this
      case Some(v) => v
      case None => default
    }
  }

  datatype Result<+R, +E> = Success(value: R) | Failure(error: E)

  /** The failure kinds of customer/bank_app.py. */
  datatype Error =
    | InvalidAmount       // Account.deposit with a non-positive amount
    | CustomerNotFound    // Bank.deposit_mony with an unknown account id
    | InvalidAccountType  // Bank.deposit_mony with a type other than checking/savings

  /** The message each failure is raised with; each message belongs to one kind only. */
  function Message(e: Error): (m: string)
    ensures m == "Deposit amount must be positive." <==> e.InvalidAmount?
    ensures m == "Customer not found" <==> e.CustomerNotFound?
    ensures m == "Invalid account type." <==> e.InvalidAccountType?
  {
    match e
    case InvalidAmount => "Deposit amount must be positive."
    case CustomerNotFound => "Customer not found"
    case InvalidAccountType => "Invalid account type."
  }
}

=== FILE: text.dfy ===
/** The slice of Python's string handling the core relies on: `str.lower()`
    and the comparison of a lowered field with `"true"`.

    Only the ASCII letters are case-mapped; no other character lowers to one
    of the letters of "true", so the comparison is unaffected.
 */
module Text {

  predicate IsUpper(c: char) {
    'A' <= c <= 'Z'
  }

  /** The lower-case form of one character: ASCII `A`-`Z` shift down by 32. */
  function LowerChar(c: char): (r: char)
    ensures !IsUpper(r)
    ensures IsUpper(c) ==> r as int == c as int + 32
    ensures !IsUpper(c) ==> r == c
  {
    if IsUpper(c) then (c as int + 32) as char else c
  }

  /** `s.lower()`: the same string with every upper-case letter lowered. */
  function Lower(s: string): (r: string)
    ensures |r| == |s|
    ensures forall i :: 0 <= i < |s| ==> r[i] == LowerChar(s[i])
    ensures forall i :: 0 <= i < |r| ==> !IsUpper(r[i])
  {
    if s == [] then [] else [LowerChar(s[0])] + Lower(s[1..])
  }

  /** Lowering twice is lowering once. */
  lemma LowerIdempotent(s: string)
    ensures Lower(Lower(s)) == Lower(s)
  {
  }

  /** Reference spelling check, independent of `Lower`: four characters, each
      the lower- or the upper-case letter of "true" at that position. */
  predicate SpellsTrue(s: string) {
    && |s| == 4
    && forall i :: 0 <= i < 4 ==> s[i] == "true"[i] || s[i] == "TRUE"[i]
  }

  /** `s.lower() == "true"` holds exactly for the case-insensitive spellings of "true". */
  lemma LowerIsTrueIff(s: string)
    ensures Lower(s) == "true" <==> SpellsTrue(s)
  {
  }
}
